=== FILE: README.md ===
# bt-mini-db in Dafny

A model of the core of bt-mini-db, a small catalog of BattleTech
miniatures, with proofs about it. The model covers three parts.

- **Miniature records** (`miniatures.dfy`). A miniature has a material, a
  paint scheme and a built state. Construction checks those three fields in
  a fixed order and fails with an error naming the first missing one. The
  catalog fills in `kind` and `key` later.
- **The catalog** (`catalog.dfy`, `snake_case.dfy`, `decimal.dfy`).
  - A producer is a named sequence of miniatures. Only producers whose name
    starts with `Make` are used.
  - The producer's *kind* is its name with the prefix removed, converted to
    snake_case by `_ToSnakeCase`.
  - The k-th miniature a producer yields gets that kind and the key
    `<kind>_<k>`, with k counted from 0 for each producer.
  - Miniatures are appended to a list and written into a key→miniature map.
    When two miniatures share a key, the later one wins.
- **Special-ability tags** (`specials.dfy`).
  - Fixed labels: `AMS`, `CASE`, `LTAG`, `OMNI`, `OVL`.
  - `IF(n)`.
  - Ranged tags `LRM`, `REAR` and `SRM`. Their slots render as decimal
    integers, or as the placeholder `-` when a value is absent.

Supporting modules:
- `wrappers.dfy`: `Option` and `Result`.
- `ascii.dfy`: ASCII case mapping.
- `decimal.dfy`: rendering integers as decimal text (Python's `'%d'`) and
  parsing it back.

Some operations only produce text, such as the tag renderers, the key
renderer and `_ToSnakeCase`. Each one is paired with a partner: a parser that
reads the text back (`Decimal.ParseInt`, `Specials.ParseSlots`,
`Specials.Parse`, `Catalog.ParseKey`), or an independent description of the
output (`SnakeCase.Separators`). Lemmas relate each operation to its partner.

`_ToSnakeCase` treats a character as the start of a new word exactly when
upper-casing leaves it unchanged. That holds for upper-case letters, but also
for digits, `_` and every other character without case. A snake_case name
such as `mad_cat` therefore becomes `mad__cat`: snake_case input is not
returned unchanged.
`SnakeCase.SnakeCaseIdempotentIff` states exactly when applying the
conversion twice changes nothing.

## Model

| member | source | states |
|---|---|---|
| Miniatures.NewMiniature | db.py:26-42 | Construction succeeds exactly when material, paint and built are all given. On success the three values are stored as given and kind and key are unset. On failure the error names a missing field, and every field checked before it was present. |
| Miniatures.Message | db.py:29-37 | The error text begins with the name of the missing field. |
| Miniatures.FirstMissingWins | db.py:27-29 | When material is missing, the error names material, whatever paint and built are. |
| Miniatures.MissingBuiltExample | db.py:36-37 | Material and paint given, built missing: construction fails with the error for built. |
| Ascii.Lower | db.py:62 | `c.lower()` over ASCII turns an upper-case letter into a lower-case one and leaves every other character unchanged. The result is never an upper-case letter. |
| Ascii.Upper | db.py:59 | `c.upper()` over ASCII turns a lower-case letter into the upper-case letter that lowers back to it, and leaves every other character unchanged. The result is never a lower-case letter. |
| SnakeCase.Step | db.py:59-64 | One loop iteration appends the lowered input character. A `_` goes in front exactly when the character starts a word and the output is already non-empty. |
| SnakeCase.ToSnakeCase | db.py:56-65 | The output is never shorter than the input. |
| SnakeCase.SnakeCaseSnoc | db.py:58-64 | One more input character appends exactly what the loop emits for it and leaves the earlier output unchanged. |
| SnakeCase.SnakeCaseNoUpper | db.py:59-64 | The output contains no upper-case ASCII letter. |
| SnakeCase.SnakeCaseFirst | db.py:59-62 | The output begins with the lowered first input character: no separator is ever put before the first character. |
| SnakeCase.SnakeCaseLength | db.py:58-65 | The output length is the input length plus the number of positions ≥ 1 whose character is unchanged by upper-casing. |
| SnakeCase.NoSeparatorsOutput | db.py:58-64 | With no word-starting character after the first, the output is the input with only its first character lowered. |
| SnakeCase.SnakeCaseFixedIff | db.py:57-65 | The input comes back unchanged exactly when it is empty, or its first character is not an upper-case letter and every later character is a lower-case letter. |
| SnakeCase.LowercaseUnchanged | db.py:57-65 | An input made only of lower-case letters, including the empty string, comes back unchanged. |
| SnakeCase.NotStartsWordIsLower | db.py:59 | The test `c.upper() == c` fails exactly for lower-case ASCII letters. |
| SnakeCase.SnakeCaseIdempotentIff | db.py:59-62 | Applying the conversion twice gives the same result as once exactly when no character after the first starts a word. |
| SnakeCase.MadCatExample | db.py:69 | "MadCat" becomes "mad_cat". |
| SnakeCase.LowerFirstExample | db.py:59-64 | "madCat" also becomes "mad_cat". |
| SnakeCase.VultureExample | db.py:79 | "Vulture" becomes "vulture". |
| SnakeCase.AtlasExample | db.py:56-65 | "Atlas" becomes "atlas". |
| SnakeCase.SnakeInputExample | db.py:59-62 | "mad_cat" becomes "mad__cat": the `_` starts a word and gets a second `_` in front. |
| SnakeCase.EmptyExample | db.py:57-65 | The empty name gives the empty kind. |
| Decimal.NatToString | db.py:93 | `'%d'` of a non-negative number, as the key index uses it: never empty, digits only, and the only text starting with `0` is `0` itself, so there is no padding. `Decimal.NatRoundTrip` reads it back. |
| Decimal.IntToString | specials.py:4 | `'%d' % n` is never empty. It starts with `-` exactly when `n` is negative, and every other character is a digit. The digits carry no leading zero unless they are `0`, and `-0` is never written. |
| Decimal.CanonicalNatUnique | db.py:93 | Any unpadded digit run that reads back as `n` is exactly `'%d'` of `n`: the rendering is the only canonical spelling of the number. |
| Decimal.CanonicalIntUnique | specials.py:4 | Any unpadded signed decimal text other than `-0` that reads back as `n` is exactly `'%d' % n`. |
| Decimal.NatRoundTrip | specials.py:4 | Parsing the decimal rendering of a natural number gives the number back. |
| Decimal.IntRoundTrip | specials.py:4 | Parsing the decimal rendering of any integer, negative ones included, gives the integer back. |
| Decimal.IntToStringInjective | specials.py:4 | Distinct integers render to distinct decimal texts. |
| Specials.FormatNumber | specials.py:1-4 | The rendering is never empty, holds no `/`, does not start with an upper-case letter, and is `-` exactly when the value is absent. A present value is written without padding. |
| Specials.SlotUnique | specials.py:1-4 | The rendering is the only canonical slot text (`-` or unpadded decimal) that reads back as a given value. |
| Specials.JoinSlotsCanonical | specials.py:18 | Every slot of joined slot text is canonical. |
| Specials.SlotRoundTrip | specials.py:1-4 | Reading a rendered slot back gives the original value, absent or present. |
| Specials.FormatNumberInjective | specials.py:1-4 | Distinct slot values render differently, so no number renders as `-`. |
| Specials.IF | specials.py:13-14 | The text is `IF` followed by decimal text that parses back to `num` and carries no padding, and it contains no `/`. |
| Specials.LRM | specials.py:17-18 | The text is `LRM` followed by slot text that reads back as exactly `[s, m, l]`, every slot is canonical, and it contains exactly two `/`. |
| Specials.REAR | specials.py:30-31 | The text is `REAR` followed by slot text that reads back as exactly `[s, m, l]`, every slot is canonical, and it contains exactly two `/`. |
| Specials.SRM | specials.py:34-35 | The text is `SRM` followed by slot text that reads back as exactly `[s, m]`, every slot is canonical, and it contains exactly one `/`. |
| Specials.JoinSlotsRoundTrip | specials.py:18 | Slot texts joined by `/` read back as the slot values, with none omitted. |
| Specials.JoinSlotsCount | specials.py:18 | Joined slots hold exactly one `/` fewer than there are slots. |
| Specials.ParseConstant | specials.py:7-27 | Each of the constant tags `AMS`, `CASE`, `LTAG`, `OMNI`, `OVL` reads back as itself. |
| Specials.ParseRender | specials.py:7-35 | Reading back the text of any tag gives that tag: rendering loses nothing. |
| Specials.RenderInjective | specials.py:7-35 | Two tags render to the same text exactly when they are the same tag. |
| Specials.LrmAllMissingExample | specials.py:17-18 | `LRM(None, None, None)` is `LRM-/-/-`. |
| Specials.SrmMissingExample | specials.py:34-35 | `SRM(2, None)` is `SRM2/-`. |
| Specials.IfExample | specials.py:13-14 | `IF(2)` is `IF2`. |
| Specials.LrmExample | specials.py:17-18 | `LRM(1, 1, 2)` is `LRM1/1/2`. |
| Catalog.IsMaker | db.py:88 | A producer is used exactly when its name starts with `Make`. |
| Catalog.KindOf | db.py:89 | The kind is `_ToSnakeCase` of the name after `Make`. It is at least as long as that part of the name and holds no upper-case letter. |
| Catalog.KeyOf | db.py:93 | `'%s_%d' % (kind, index)`: the kind, a `_` and the index in decimal. `Catalog.KeyRoundTrip` reads it back. |
| Catalog.KeyEndsInDigit | db.py:93 | Every key ends in a decimal digit. |
| Catalog.Stamp | db.py:92-93 | The stamped miniature has the given kind and the key made from the kind and the index. Every other field is unchanged. |
| Catalog.Index | db.py:95 | The map of dictionary writes in list order: each key is mapped to a miniature carrying that key. |
| Catalog.TagProducer | db.py:90-96 | Tagging keeps a producer's miniatures in order and count. The k-th one is stamped with the producer's kind and key number k. |
| Catalog.Tagged | db.py:85-96 | Every miniature in the catalog list carries a kind and a key. |
| Catalog.SkipsNonMakers | db.py:88 | A producer whose name lacks the `Make` prefix adds nothing to the catalog. |
| Catalog.TaggedSnoc | db.py:88-96 | Each further producer appends its own stamped miniatures after those of the producers before it. |
| Catalog.FileProducer | db.py:90-96 | Filing one producer's output appends its stamped miniatures to the list and keeps the map consistent with the list. |
| Catalog.Build | db.py:85-96 | The built catalog's list is the stamped output of all producers in order, and its map is the list's last-write-wins index. |
| Catalog.KeyRoundTrip | db.py:93 | Splitting a key at its last `_` gives back the kind and the index it was made from. |
| Catalog.KeyOfInjective | db.py:93 | Two keys are equal exactly when their kinds and their indices are. |
| Catalog.ProducerKeysDistinct | db.py:90-96 | Distinct positions within one producer get distinct keys. |
| Catalog.TaggedKeepsRecords | db.py:91-94 | The catalog list is the producers' yielded miniatures in order, with only kind and key changed. |
| Catalog.TaggedKinds | db.py:89-93 | Every miniature's kind is the kind of some producer. Splitting the miniature's key at its last `_` gives that kind back. |
| Catalog.IndexKeys | db.py:95 | The map holds exactly the keys in the list, and each maps to a miniature of the list carrying that key. |
| Catalog.IndexLastWins | db.py:95 | Under a key, the map holds the last miniature in the list with that key. |
| Catalog.LastWins | db.py:95 | Every miniature that no later miniature shares a key with is the one the map holds under its key. |
| Catalog.LaterKeysDiffer | db.py:90-95 | Within one producer's block, the key at a position does not occur again later in the block. |
| Catalog.BlockLastWins | db.py:90-95 | After a producer's block is filed, the map holds the block's own miniature under each of the block's keys, whatever was filed before. |
| Catalog.UniqueKeysAllFound | db.py:94-95 | When keys are unique, every miniature is found under its own key. |
| Catalog.DistinctKindsDistinctKeys | db.py:88-96 | When the used producers have distinct kinds, all keys in the catalog are distinct. |
| Catalog.CatalogFindsEverything | db.py:88-96 | When the used producers have distinct kinds, every catalog miniature is found under its own key. |
| Catalog.OverwrittenAt | db.py:95 | With two producers of the same kind, the second one's k-th miniature replaces the first one's under their shared key. |
| Catalog.SameKindLastWins | db.py:95 | Two producers of the same kind clash. When the second yields at least as many miniatures as the first, every key the first one files ends up holding the second one's miniature. |
| Catalog.FirstKeepsBeyond | db.py:95 | Of two producers of the same kind, keys at positions beyond the second one's count keep the first one's miniature. |
| Catalog.Lookup | db.py:95-102 | Lookup succeeds exactly when some miniature in the list has the key, and then returns a list member carrying that key. When several carry it, the result is the last one written. Otherwise lookup fails with `KeyNotFound`. |
| Catalog.DemoKeys | db.py:69-83 | The demo producers give three miniatures, keyed `mad_cat_0`, `mad_cat_1` and `vulture_0`. |

## Left out

- Producer discovery through `MiniatureDB.__dict__` is not modelled; the model takes an explicit, ordered list of producers. Python generators are not modelled either: each producer's output is a finished sequence.
- Only ASCII case mapping is modelled (`str.upper`/`str.lower`). Python also maps other characters, such as `ß`.
- The catalog's entries are attributes in the instance's `__dict__` (db.py:95), and the model uses a separate key map in their place. Keys never collide with the object's other attributes, because every key ends in a digit (`Catalog.KeyEndsInDigit`). The difference is in the other direction. In Python, attribute access also succeeds for names that are not keys, such as `_minis` (db.py:86) or the producer `MakeMadCat` (db.py:69). In the model, `Catalog.Lookup` fails with `KeyNotFound` for those names.
- The module-level demo instance and its `print` calls (db.py:99-102) are output only. `Catalog.DemoKeys` states which keys they would look up.
- `Miniature.__str__` (db.py:44-53) is display formatting and is not modelled. It quotes `kind`, prints `key` as it is, prints the three `Enum` values as Python shows them, and joins the five `name: value` parts with tabs inside `{ }`.
- The text of the enumeration values, including the upper-case `'NO'` of `Built`, is not modelled: the values are opaque labels with no behaviour. The enumerations are plain datatypes.
- `'%d'` applied to a `bool` or to a `float` is not modelled. Slots and `IF` take integers only.
- The model omits mutation and aliasing of Python objects: miniatures are values, and stamping makes a new value.
- Argument types are not modelled. Python accepts any value other than `None` for material, paint and built; the model types them as the three enumerations.
- Template and unit attribute resolution is not part of this model. It does not appear in `db.py` or `specials.py`.

=== FILE: ascii.dfy ===
/** ASCII case mapping, the part of Python's `str.upper` and `str.lower`
    that the catalog's producer names exercise. Every character outside
    the two ASCII letter ranges maps to itself. */
module Ascii {

  predicate IsLowerLetter(c: char) {
    'a' <= c <= 'z'
  }

  predicate IsUpperLetter(c: char) {
    'A' <= c <= 'Z'
  }

  /** Distance between an ASCII lower-case letter and its upper-case form. */
  const CaseOffset: int := 'a' as int - 'A' as int

  /** `c.lower()` restricted to ASCII. */
  function Lower(c: char): (r: char)
    ensures IsUpperLetter(c) ==> IsLowerLetter(r)
    ensures !IsUpperLetter(r)
    ensures r == c <==> !IsUpperLetter(c)
  {
    if IsUpperLetter(c) then (c as int + CaseOffset) as char else c
  }

  /** `c.upper()` restricted to ASCII. */
  function Upper(c: char): (r: char)
    ensures IsLowerLetter(c) ==> IsUpperLetter(r) && Lower(r) == c
    ensures !IsLowerLetter(r)
    ensures r == c <==> !IsLowerLetter(c)
  {
    if IsLowerLetter(c) then (c as int - CaseOffset) as char else c
  }

  /** Lower-casing a character twice changes nothing more than once. */
  lemma LowerIdempotent(c: char)
    ensures Lower(Lower(c)) == Lower(c)
  {
  }
}

=== FILE: catalog.dfy ===
/** The miniature catalog (`MiniatureDB` in db.py): producers yield
    miniatures, the catalog stamps each with its producer's kind and a
    per-producer index, keeps them in order, and files them by key.

    The source finds its producers by scanning the class for attributes
    whose name starts with "Make"; here the producers are an explicit
    ordered list of names and the miniatures each yields. */
module Catalog {
  import opened Wrappers
  import opened Miniatures
  import SnakeCase
  import Ascii
  import Decimal

  /** The name prefix that marks a producer. */
  const MakerPrefix: string := "Make"

  /** What joins a kind to an index in a key. */
  const KeySeparator: char := '_'

  /** A producer: its declared name and the miniatures it yields, in order. */
  datatype Producer = Producer(name: string, minis: seq<Miniature>)

  /** Only names starting with the prefix are treated as producers. */
  predicate IsMaker(p: Producer) {
    |MakerPrefix| <= |p.name| && p.name[..|MakerPrefix|] == MakerPrefix
  }

  /** A producer's kind: the rest of its name after the prefix, in snake_case. */
  function KindOf(p: Producer): (kind: string)
    requires IsMaker(p)
    ensures |kind| >= |p.name| - |MakerPrefix|
    ensures forall i :: 0 <= i < |kind| ==> !Ascii.IsUpperLetter(kind[i])
  {
    SnakeCase.SnakeCaseNoUpper(p.name[|MakerPrefix|..]);
    SnakeCase.ToSnakeCase(p.name[|MakerPrefix|..])
  }

  /** `'%s_%d' % (kind, index)`. */
  function KeyOf(kind: string, index: nat): string {
    kind + [KeySeparator] + Decimal.NatToString(index)
  }

  /** What the loop does to the `index`-th miniature of a producer. */
  function Stamp(m: Miniature, kind: string, index: nat): (r: Miniature)
    ensures r.kind == Some(kind) && r.key == Some(KeyOf(kind, index))
    ensures r.(kind := m.kind, key := m.key) == m
  {
    m.(kind := Some(kind), key := Some(KeyOf(kind, index)))
  }

  /** The miniatures of one producer, stamped in yield order; the index
      restarts at 0 for every producer. */
  function TagProducer(kind: string, minis: seq<Miniature>): (r: seq<Miniature>)
    ensures |r| == |minis|
    ensures forall k :: 0 <= k < |r| ==> r[k] == Stamp(minis[k], kind, k)
    decreases |minis|
  {
    if |minis| == 0 then []
    else
      var n := |minis| - 1;
      TagProducer(kind, minis[..n]) + [Stamp(minis[n], kind, n)]
  }

  /** What one producer contributes to the catalog's list. */
  function Block(p: Producer): seq<Miniature> {
    if IsMaker(p) then TagProducer(KindOf(p), p.minis) else []
  }

  /** Every miniature is stamped with both a kind and a key. */
  predicate Stamped(l: seq<Miniature>) {
    forall i :: 0 <= i < |l| ==> l[i].kind.Some? && l[i].key.Some?
  }

  /** The catalog's list: the producers' stamped miniatures, producer by
      producer in declaration order. */
  function Tagged(ps: seq<Producer>): (r: seq<Miniature>)
    ensures Stamped(r)
    decreases |ps|
  {
    if |ps| == 0 then []
    else Tagged(ps[..|ps| - 1]) + Block(ps[|ps| - 1])
  }

  /** A producer whose name lacks the prefix is skipped: the catalog
      is what it would be without it. */
  lemma SkipsNonMakers(ps: seq<Producer>, p: Producer)
    requires !IsMaker(p)
    ensures Tagged(ps + [p]) == Tagged(ps)
  {
    assert (ps + [p])[..|ps|] == ps;
  }

  /** The miniatures the producers yield, before stamping. */
  function Yielded(ps: seq<Producer>): seq<Miniature>
    decreases |ps|
  {
    if |ps| == 0 then []
    else
      var p := ps[|ps| - 1];
      Yielded(ps[..|ps| - 1]) + (if IsMaker(p) then p.minis else [])
  }

  /** The key map after inserting the list's miniatures in order. */
  function Index(l: seq<Miniature>): (byKey: map<string, Miniature>)
    requires Stamped(l)
    ensures forall k :: k in byKey ==> byKey[k].key == Some(k)
    decreases |l|
  {
    if |l| == 0 then map[]
    else
      var m := l[|l| - 1];
      Index(l[..|l| - 1])[m.key.value := m]
  }

  /** The catalog: the list of miniatures and the key map. */
  datatype MiniatureDB = MiniatureDB(minis: seq<Miniature>, byKey: map<string, Miniature>)

  /** What construction establishes about a catalog. */
  predicate Valid(db: MiniatureDB) {
    Stamped(db.minis) && db.byKey == Index(db.minis)
  }

  /** The inner loop of `MiniatureDB()` for one producer: stamps each
      miniature it yields with the kind and a counter that starts at 0,
      appends it to the list and files it under its key. */
  method FileProducer(db: MiniatureDB, kind: string, yielded: seq<Miniature>) returns (db': MiniatureDB)
    requires Valid(db)
    ensures Valid(db')
    ensures db'.minis == db.minis + TagProducer(kind, yielded)
  {
    var minis, byKey := db.minis, db.byKey;
    var index := 0;
    while index < |yielded|
      invariant 0 <= index <= |yielded|
      invariant minis == db.minis + TagProducer(kind, yielded[..index])
      invariant Stamped(minis)
      invariant byKey == Index(minis)
    {
      var mini := Stamp(yielded[index], kind, index);
      TagProducerSnoc(kind, yielded, index);
      IndexSnoc(minis, mini);
      minis := minis + [mini];
      byKey := byKey[mini.key.value := mini];
      index := index + 1;
    }
    assert yielded[..index] == yielded;
    db' := MiniatureDB(minis, byKey);
  }

  /** `MiniatureDB()`: runs the producers in declaration order, skipping
      names without the prefix, and files what each yields. */
  method Build(producers: seq<Producer>) returns (db: MiniatureDB)
    ensures Valid(db)
    ensures db.minis == Tagged(producers)
  {
    db := MiniatureDB([], map[]);
    var p := 0;
    while p < |producers|
      invariant 0 <= p <= |producers|
      invariant Valid(db)
      invariant db.minis == Tagged(producers[..p])
    {
      var producer := producers[p];
      TaggedSnoc(producers, p);
      if IsMaker(producer) {
        db := FileProducer(db, KindOf(producer), producer.minis);
      }
      p := p + 1;
    }
    assert producers[..p] == producers;
  }

  lemma TagProducerSnoc(kind: string, minis: seq<Miniature>, index: nat)
    requires index < |minis|
    ensures TagProducer(kind, minis[..index + 1]) == TagProducer(kind, minis[..index]) + [Stamp(minis[index], kind, index)]
  {
    assert minis[..index + 1][..index] == minis[..index];
  }

  lemma TaggedSnoc(ps: seq<Producer>, p: nat)
    requires p < |ps|
    ensures Tagged(ps[..p + 1]) == Tagged(ps[..p]) + Block(ps[p])
  {
    assert ps[..p + 1][..p] == ps[..p];
  }

  /** No miniature after position `i` carries the key of the one at `i`. */
  predicate LastWithKey(l: seq<Miniature>, i: nat)
    requires i < |l|
  {
    forall j :: i < j < |l| ==> l[j].key != l[i].key
  }

  /** Every miniature that is the last to carry its key is the one the
      map holds under that key. */
  lemma LastWins(l: seq<Miniature>)
    requires Stamped(l)
    ensures forall i :: 0 <= i < |l| && LastWithKey(l, i) ==>
      l[i].key.value in Index(l) && Index(l)[l[i].key.value] == l[i]
  {
    forall i | 0 <= i < |l| && LastWithKey(l, i)
      ensures l[i].key.value in Index(l) && Index(l)[l[i].key.value] == l[i]
    {
      IndexLastWins(l, i);
    }
  }

  /** The error of looking up a key no miniature was filed under. */
  datatype LookupError = KeyNotFound(key: string)

  /** Attribute access `db.<key>`: the miniature filed under `key`. */
  function Lookup(db: MiniatureDB, key: string): (r: Result<Miniature, LookupError>)
    requires Valid(db)
    ensures r.Success? <==> exists i :: 0 <= i < |db.minis| && db.minis[i].key == Some(key)
    ensures r.Success? ==> r.value.key == Some(key) && r.value in db.minis
    ensures r.Failure? ==> r.error == KeyNotFound(key)
    ensures forall i :: 0 <= i < |db.minis| && db.minis[i].key == Some(key) && LastWithKey(db.minis, i) ==>
      r == Success(db.minis[i])
  {
    IndexKeys(db.minis);
    LastWins(db.minis);
    if key in db.byKey then Success(db.byKey[key]) else Failure(KeyNotFound(key))
  }

  // Keys.

  /** Position of the last key separator among the first `n` characters. */
  function LastSeparator(s: string, n: nat): (r: Option<nat>)
    requires n <= |s|
    ensures r.Some? ==> r.value < n
    decreases n
  {
    if n == 0 then None
    else if s[n - 1] == KeySeparator then Some(n - 1)
    else LastSeparator(s, n - 1)
  }

  /** Splits a key at its last separator into kind and index. */
  function ParseKey(key: string): Option<(string, nat)> {
    match LastSeparator(key, |key|)
    case None => None
    case Some(j) =>
      match Decimal.ParseNat(key[j + 1..])
      case Some(n) => Some((key[..j], n))
      case None => None
  }

  lemma {:induction false} LastSeparatorAt(s: string, j: nat, n: nat)
    requires j < n <= |s|
    requires s[j] == KeySeparator
    requires forall i :: j < i < n ==> s[i] != KeySeparator
    ensures LastSeparator(s, n) == Some(j)
    decreases n
  {
    if n - 1 != j {
      LastSeparatorAt(s, j, n - 1);
    }
  }

  /** A key splits back into the kind and index it was made from: the
      index is digits only, so the last separator is the one the key
      format wrote, whatever separators the kind holds. */
  lemma KeyRoundTrip(kind: string, index: nat)
    ensures ParseKey(KeyOf(kind, index)) == Some((kind, index))
  {
    var digits := Decimal.NatToString(index);
    var key := KeyOf(kind, index);
    forall i | |kind| < i < |key|
      ensures key[i] != KeySeparator
    {
      assert key[i] == digits[i - |kind| - 1];
    }
    LastSeparatorAt(key, |kind|, |key|);
    assert key[|kind| + 1..] == digits;
    assert key[..|kind|] == kind;
    Decimal.NatRoundTrip(index);
  }

  /** Every key ends in a digit, so no key is the name of one of the
      catalog object's own attributes. */
  lemma KeyEndsInDigit(kind: string, index: nat)
    ensures Decimal.IsDigit(KeyOf(kind, index)[|KeyOf(kind, index)| - 1])
  {
    var digits := Decimal.NatToString(index);
    assert KeyOf(kind, index)[|KeyOf(kind, index)| - 1] == digits[|digits| - 1];
  }

  /** Keys differ whenever their kinds or their indices differ. */
  lemma KeyOfInjective(kind1: string, index1: nat, kind2: string, index2: nat)
    ensures KeyOf(kind1, index1) == KeyOf(kind2, index2) <==> kind1 == kind2 && index1 == index2
  {
    KeyRoundTrip(kind1, index1);
    KeyRoundTrip(kind2, index2);
  }

  // The key map.

  lemma IndexSnoc(l: seq<Miniature>, m: Miniature)
    requires Stamped(l)
    requires m.kind.Some? && m.key.Some?
    ensures Stamped(l + [m])
    ensures Index(l + [m]) == Index(l)[m.key.value := m]
  {
    assert (l + [m])[..|l|] == l;
    forall i | 0 <= i < |l|
      ensures l[i] == (l + [m])[i]
    {
    }
  }

  /** A key is in the map exactly when some miniature of the list carries it. */
  lemma {:induction false} IndexKeys(l: seq<Miniature>)
    requires Stamped(l)
    ensures forall k :: k in Index(l) <==> exists i :: 0 <= i < |l| && l[i].key == Some(k)
    ensures forall k :: k in Index(l) ==> Index(l)[k].key == Some(k) && Index(l)[k] in l
    decreases |l|
  {
    if |l| > 0 {
      var front := l[..|l| - 1];
      var m := l[|l| - 1];
      assert l == front + [m];
      IndexKeys(front);
      forall k | (exists i :: 0 <= i < |l| && l[i].key == Some(k))
        ensures k in Index(l)
      {
        var i :| 0 <= i < |l| && l[i].key == Some(k);
        if i < |front| {
          assert front[i] == l[i];
        }
      }
      forall k | k in Index(front)
        ensures exists i :: 0 <= i < |l| && l[i].key == Some(k)
      {
        var i :| 0 <= i < |front| && front[i].key == Some(k);
        assert l[i] == front[i];
      }
    }
  }

  /** Last write wins: the map holds, under each key, the last miniature
      of the list that carries it. */
  lemma {:induction false} IndexLastWins(l: seq<Miniature>, i: nat)
    requires Stamped(l)
    requires i < |l|
    requires forall j :: i < j < |l| ==> l[j].key != l[i].key
    ensures l[i].key.value in Index(l)
    ensures Index(l)[l[i].key.value] == l[i]
    decreases |l|
  {
    var front := l[..|l| - 1];
    var m := l[|l| - 1];
    assert l == front + [m];
    if i < |l| - 1 {
      assert front[i] == l[i];
      forall j | i < j < |front|
        ensures front[j].key != front[i].key
      {
        assert front[j] == l[j];
      }
      IndexLastWins(front, i);
    }
  }

  /** With pairwise distinct keys every miniature of the list is found
      under its own key. */
  lemma UniqueKeysAllFound(l: seq<Miniature>)
    requires Stamped(l)
    requires forall i, j :: 0 <= i < j < |l| ==> l[i].key != l[j].key
    ensures forall i :: 0 <= i < |l| ==> l[i].key.value in Index(l) && Index(l)[l[i].key.value] == l[i]
  {
    forall i | 0 <= i < |l|
      ensures l[i].key.value in Index(l) && Index(l)[l[i].key.value] == l[i]
    {
      IndexLastWins(l, i);
    }
  }

  // The stamped list.

  /** Within one producer, distinct positions give distinct keys. */
  lemma ProducerKeysDistinct(kind: string, minis: seq<Miniature>)
    ensures forall i, j :: 0 <= i < j < |minis| ==>
      TagProducer(kind, minis)[i].key != TagProducer(kind, minis)[j].key
  {
    var r := TagProducer(kind, minis);
    forall i, j | 0 <= i < j < |minis|
      ensures r[i].key != r[j].key
    {
      KeyOfInjective(kind, i, kind, j);
    }
  }

  /** Stamping changes only `kind` and `key`: the catalog's list is the
      producers' output in order, with the same material, paint and
      built state at every position. */
  lemma {:induction false} TaggedKeepsRecords(ps: seq<Producer>)
    ensures |Tagged(ps)| == |Yielded(ps)|
    ensures forall i :: 0 <= i < |Tagged(ps)| ==>
      Tagged(ps)[i] == Yielded(ps)[i].(kind := Tagged(ps)[i].kind, key := Tagged(ps)[i].key)
    decreases |ps|
  {
    if |ps| > 0 {
      var front := ps[..|ps| - 1];
      TaggedKeepsRecords(front);
      var p := ps[|ps| - 1];
      var t, y := Tagged(ps), Yielded(ps);
      var n := |Tagged(front)|;
      forall i | 0 <= i < |t|
        ensures t[i] == y[i].(kind := t[i].kind, key := t[i].key)
      {
        if i < n {
          assert t[i] == Tagged(front)[i];
          assert y[i] == Yielded(front)[i];
        } else {
          assert t[i] == Block(p)[i - n];
          assert y[i] == p.minis[i - n];
        }
      }
    }
  }

  /** The kinds of the producers that count as producers. */
  ghost function Kinds(ps: seq<Producer>): set<string>
    decreases |ps|
  {
    if |ps| == 0 then {}
    else
      var p := ps[|ps| - 1];
      Kinds(ps[..|ps| - 1]) + (if IsMaker(p) then {KindOf(p)} else {})
  }

  /** A kind no producer derives is not among the kinds. */
  lemma {:induction false} KindNotAmong(ps: seq<Producer>, kind: string)
    requires forall q :: 0 <= q < |ps| && IsMaker(ps[q]) ==> KindOf(ps[q]) != kind
    ensures kind !in Kinds(ps)
    decreases |ps|
  {
    if |ps| > 0 {
      var front := ps[..|ps| - 1];
      forall q | 0 <= q < |front| && IsMaker(front[q])
        ensures KindOf(front[q]) != kind
      {
        assert front[q] == ps[q];
      }
      KindNotAmong(front, kind);
    }
  }

  /** The kind a key was made from: what precedes its last separator. */
  function KeyKind(key: string): Option<string> {
    match ParseKey(key)
    case Some((kind, _)) => Some(kind)
    case None => None
  }

  /** Every miniature of the list carries the kind of one of the producers,
      and a key made from that kind. */
  lemma {:induction false} TaggedKinds(ps: seq<Producer>)
    ensures forall i :: 0 <= i < |Tagged(ps)| ==>
      Tagged(ps)[i].kind.value in Kinds(ps) && KeyKind(Tagged(ps)[i].key.value) == Tagged(ps)[i].kind
    decreases |ps|
  {
    if |ps| > 0 {
      var front := ps[..|ps| - 1];
      TaggedKinds(front);
      var p := ps[|ps| - 1];
      var t := Tagged(ps);
      var n := |Tagged(front)|;
      forall i | 0 <= i < |t|
        ensures t[i].kind.value in Kinds(ps) && KeyKind(t[i].key.value) == t[i].kind
      {
        if i < n {
          assert t[i] == Tagged(front)[i];
        } else {
          assert t[i] == Stamp(p.minis[i - n], KindOf(p), i - n);
          KeyRoundTrip(KindOf(p), i - n);
        }
      }
    }
  }

  /** No two producers (that count as producers) derive the same kind. */
  predicate DistinctKinds(ps: seq<Producer>) {
    forall i, j :: 0 <= i < j < |ps| && IsMaker(ps[i]) && IsMaker(ps[j]) ==> KindOf(ps[i]) != KindOf(ps[j])
  }

  /** When the producers' kinds are distinct, so are all the keys of the
      catalog's list. */
  lemma {:induction false} DistinctKindsDistinctKeys(ps: seq<Producer>)
    requires DistinctKinds(ps)
    ensures forall i, j :: 0 <= i < j < |Tagged(ps)| ==> Tagged(ps)[i].key != Tagged(ps)[j].key
    decreases |ps|
  {
    if |ps| > 0 {
      var front := ps[..|ps| - 1];
      var p := ps[|ps| - 1];
      assert DistinctKinds(front) by {
        forall i, j | 0 <= i < j < |front| && IsMaker(front[i]) && IsMaker(front[j])
          ensures KindOf(front[i]) != KindOf(front[j])
        {
          assert front[i] == ps[i] && front[j] == ps[j];
        }
      }
      DistinctKindsDistinctKeys(front);
      TaggedKinds(front);
      var t := Tagged(ps);
      var n := |Tagged(front)|;
      var b := Block(p);
      if IsMaker(p) {
        ProducerKeysDistinct(KindOf(p), p.minis);
        forall q | 0 <= q < |front| && IsMaker(front[q])
          ensures KindOf(front[q]) != KindOf(p)
        {
          assert front[q] == ps[q];
        }
        KindNotAmong(front, KindOf(p));
      }
      forall i, j | 0 <= i < j < |t|
        ensures t[i].key != t[j].key
      {
        if j < n {
          assert t[i] == Tagged(front)[i] && t[j] == Tagged(front)[j];
        } else if i >= n {
          assert t[i] == b[i - n] && t[j] == b[j - n];
        } else {
          assert t[i] == Tagged(front)[i];
          assert t[j] == Stamp(p.minis[j - n], KindOf(p), j - n);
          KeyRoundTrip(KindOf(p), j - n);
        }
      }
    }
  }

  /** With distinct kinds, every miniature the producers yield is found
      under its own key in the catalog built from them. */
  lemma CatalogFindsEverything(ps: seq<Producer>)
    requires DistinctKinds(ps)
    ensures forall i :: 0 <= i < |Tagged(ps)| ==>
      Tagged(ps)[i].key.value in Index(Tagged(ps)) && Index(Tagged(ps))[Tagged(ps)[i].key.value] == Tagged(ps)[i]
  {
    DistinctKindsDistinctKeys(ps);
    UniqueKeysAllFound(Tagged(ps));
  }

  lemma TaggedPair(p1: Producer, p2: Producer)
    ensures Tagged([p1, p2]) == Block(p1) + Block(p2)
  {
    var ps := [p1, p2];
    assert ps[..1][..0] == [];
    assert ps[..2][..1] == ps[..1];
    assert ps[..2] == ps;
    TaggedSnoc(ps, 0);
    TaggedSnoc(ps, 1);
  }

  /** The miniature at position `k` of the second producer replaces the
      one the first producer filed under the same key. */
  lemma OverwrittenAt(p1: Producer, p2: Producer, k: nat)
    requires IsMaker(p1) && IsMaker(p2) && KindOf(p1) == KindOf(p2)
    requires k < |p1.minis| && k < |p2.minis|
    ensures KeyOf(KindOf(p1), k) in Index(Tagged([p1, p2]))
    ensures Index(Tagged([p1, p2]))[KeyOf(KindOf(p1), k)] == Stamp(p2.minis[k], KindOf(p2), k)
  {
    var kind := KindOf(p1);
    var a := TagProducer(kind, p1.minis);
    TaggedPair(p1, p2);
    BlockLastWins(kind, a, p2.minis, k);
  }

  /** A block filed after any list holds the last miniature under each of
      its keys. */
  lemma BlockLastWins(kind: string, front: seq<Miniature>, minis: seq<Miniature>, k: nat)
    requires k < |minis|
    requires Stamped(front + TagProducer(kind, minis))
    ensures KeyOf(kind, k) in Index(front + TagProducer(kind, minis))
    ensures Index(front + TagProducer(kind, minis))[KeyOf(kind, k)] == Stamp(minis[k], kind, k)
  {
    var l := front + TagProducer(kind, minis);
    LaterKeysDiffer(kind, front, minis, k);
    assert l[|front| + k] == Stamp(minis[k], kind, k);
    IndexLastWins(l, |front| + k);
  }

  /** After a producer's block, the key at its position `k` does not
      recur later in the block. */
  lemma LaterKeysDiffer(kind: string, front: seq<Miniature>, minis: seq<Miniature>, k: nat)
    requires k < |minis|
    ensures LastWithKey(front + TagProducer(kind, minis), |front| + k)
  {
    var b := TagProducer(kind, minis);
    var l := front + b;
    var n := |front|;
    assert l[n + k] == b[k];
    forall j | n + k < j < |l|
      ensures l[j].key != l[n + k].key
    {
      assert l[j] == b[j - n];
      KeyOfInjective(kind, j - n, kind, k);
    }
  }

  /** Two producers that derive the same kind clash: every key the first
      one files is overwritten by the second one's miniature at the same
      position, since the last write wins. */
  lemma SameKindLastWins(p1: Producer, p2: Producer)
    requires IsMaker(p1) && IsMaker(p2) && KindOf(p1) == KindOf(p2)
    requires |p1.minis| <= |p2.minis|
    ensures forall k :: 0 <= k < |p1.minis| ==>
      && KeyOf(KindOf(p1), k) in Index(Tagged([p1, p2]))
      && Index(Tagged([p1, p2]))[KeyOf(KindOf(p1), k)] == Stamp(p2.minis[k], KindOf(p2), k)
  {
    forall k | 0 <= k < |p1.minis|
      ensures KeyOf(KindOf(p1), k) in Index(Tagged([p1, p2]))
      ensures Index(Tagged([p1, p2]))[KeyOf(KindOf(p1), k)] == Stamp(p2.minis[k], KindOf(p2), k)
    {
      OverwrittenAt(p1, p2, k);
    }
  }

  /** Keys at positions the second same-kind producer never reaches keep
      the first producer's miniature. */
  lemma FirstKeepsBeyond(p1: Producer, p2: Producer, k: nat)
    requires IsMaker(p1) && IsMaker(p2) && KindOf(p1) == KindOf(p2)
    requires |p2.minis| <= k < |p1.minis|
    ensures KeyOf(KindOf(p1), k) in Index(Tagged([p1, p2]))
    ensures Index(Tagged([p1, p2]))[KeyOf(KindOf(p1), k)] == Stamp(p1.minis[k], KindOf(p1), k)
  {
    var kind := KindOf(p1);
    var a := TagProducer(kind, p1.minis);
    var b := TagProducer(kind, p2.minis);
    var l := a + b;
    TaggedPair(p1, p2);
    assert l[k] == Stamp(p1.minis[k], kind, k);
    forall j | k < j < |l|
      ensures l[j].key != l[k].key
    {
      if j < |a| {
        assert l[j] == a[j];
        KeyOfInjective(kind, j, kind, k);
      } else {
        assert l[j] == b[j - |a|];
        KeyOfInjective(kind, j - |a|, kind, k);
      }
    }
    IndexLastWins(l, k);
  }

  // The demo catalog.

  /** The producers db.py declares: two Mad Cats and a Vulture, all metal. */
  function DemoProducers(): seq<Producer> {
    [ Producer("MakeMadCat", [
        Miniature(Metal, Unpainted, No, None, None),
        Miniature(Metal, GreenAndBlackGencon2018, Yes, None, None)]),
      Producer("MakeVulture", [
        Miniature(Metal, Unpainted, No, None, None)]) ]
  }

  /** The demo catalog files its miniatures as mad_cat_0, mad_cat_1 and
      vulture_0, in that order. */
  lemma DemoKeys()
    ensures |Tagged(DemoProducers())| == 3
    ensures Tagged(DemoProducers())[0].key == Some("mad_cat_0")
    ensures Tagged(DemoProducers())[1].key == Some("mad_cat_1")
    ensures Tagged(DemoProducers())[2].key == Some("vulture_0")
  {
    var ps := DemoProducers();
    TaggedPair(ps[0], ps[1]);
    assert ps == [ps[0], ps[1]];
    assert KindOf(ps[0]) == "mad_cat" by {
      assert ps[0].name[|MakerPrefix|..] == "MadCat";
      SnakeCase.MadCatExample();
    }
    assert KindOf(ps[1]) == "vulture" by {
      assert ps[1].name[|MakerPrefix|..] == "Vulture";
      SnakeCase.VultureExample();
    }
    assert KeyOf("mad_cat", 0) == "mad_cat_0" by {
      assert Decimal.NatToString(0) == "0";
    }
    assert KeyOf("mad_cat", 1) == "mad_cat_1" by {
      assert Decimal.NatToString(1) == "1";
    }
    assert KeyOf("vulture", 0) == "vulture_0" by {
      assert Decimal.NatToString(0) == "0";
    }
  }
}

=== FILE: decimal.dfy ===
/** Decimal rendering of integers, as Python's `'%d' % n` produces it,
    and the matching parser, so that the rendering can be shown to lose
    nothing. */
module Decimal {
  import opened Wrappers

  predicate IsDigit(c: char) {
    '0' <= c <= '9'
  }

  predicate AllDigits(s: string) {
    forall i :: 0 <= i < |s| ==> IsDigit(s[i])
  }

  function DigitChar(d: nat): (c: char)
    requires d < 10
    ensures IsDigit(c)
    ensures DigitValue(c) == d
  {
    ('0' as int + d) as char
  }

  function DigitValue(c: char): (d: nat)
    requires IsDigit(c)
    ensures d < 10
  {
    c as int - '0' as int
  }

  /** A run of decimal digits as `'%d'` writes it: non-empty, and without
      a leading zero unless the whole text is `0`. */
  predicate Canonical(s: string) {
    |s| >= 1 && AllDigits(s) && (s[0] == '0' ==> s == "0")
  }

  /** Signed decimal text as `'%d'` writes it: canonical digits, with a
      minus sign only in front of a non-zero value (never `-0`). */
  predicate CanonicalInt(s: string) {
    if |s| >= 1 && s[0] == '-' then Canonical(s[1..]) && s[1..] != "0" else Canonical(s)
  }

  /** Decimal digits of `n`: never empty, and without a leading zero
      unless `n` is zero itself. */
  function NatToString(n: nat): (r: string)
    ensures |r| >= 1
    ensures AllDigits(r)
    ensures r[0] == '0' ==> n == 0
    ensures r[0] == '0' ==> r == "0"
    decreases n
  {
    if n < 10 then [DigitChar(n)] else NatToString(n / 10) + [DigitChar(n % 10)]
  }

  /** `'%d' % n`: a minus sign in front of the digits of a negative number. */
  function IntToString(n: int): (r: string)
    ensures |r| >= 1
    ensures r[0] == '-' <==> n < 0
    ensures r[0] == '-' || IsDigit(r[0])
    ensures forall i :: 1 <= i < |r| ==> IsDigit(r[i])
    ensures CanonicalInt(r)
  {
    if n < 0 then
      var r := "-" + NatToString(-n);
      assert r[1..] == NatToString(-n);
      r
    else NatToString(n)
  }

  /** Value of a run of decimal digits, most significant first. */
  function DigitsValue(s: string): nat
    requires AllDigits(s)
    decreases |s|
  {
    if |s| == 0 then 0 else 10 * DigitsValue(s[..|s| - 1]) + DigitValue(s[|s| - 1])
  }

  /** Reads a non-negative decimal number; `None` unless `s` is a
      non-empty run of digits. */
  function ParseNat(s: string): (r: Option<nat>)
    ensures r.Some? <==> |s| >= 1 && AllDigits(s)
  {
    if |s| >= 1 && AllDigits(s) then Some(DigitsValue(s)) else None
  }

  /** Reads a decimal number with an optional leading minus sign. */
  function ParseInt(s: string): (r: Option<int>)
    ensures r.Some? ==> |s| >= 1
  {
    if |s| >= 1 && s[0] == '-' then
      match ParseNat(s[1..])
      case Some(n) => Some(-(n as int))
      case None => None
    else
      match ParseNat(s)
      case Some(n) => Some(n)
      case None => None
  }

  /** Reading back the digits of `n` gives `n`. */
  lemma {:induction false} NatRoundTrip(n: nat)
    ensures ParseNat(NatToString(n)) == Some(n)
    decreases n
  {
    var r := NatToString(n);
    if n >= 10 {
      NatRoundTrip(n / 10);
      var front := NatToString(n / 10);
      assert r == front + [DigitChar(n % 10)];
      assert r[..|r| - 1] == front;
      assert DigitsValue(r) == 10 * DigitsValue(front) + n % 10;
    }
  }

  /** Reading back `'%d' % n` gives `n`, for negative `n` too. */
  lemma IntRoundTrip(n: int)
    ensures ParseInt(IntToString(n)) == Some(n)
  {
    if n < 0 {
      NatRoundTrip(-n);
      var r := IntToString(n);
      assert r[1..] == NatToString(-n);
    } else {
      NatRoundTrip(n);
    }
  }

  /** A digit run that does not start with `0` has a positive value. */
  lemma {:induction false} LeadingDigitPositive(s: string)
    requires |s| >= 1 && AllDigits(s) && s[0] != '0'
    ensures DigitsValue(s) >= 1
    decreases |s|
  {
    if |s| > 1 {
      var front := s[..|s| - 1];
      assert front[0] == s[0];
      LeadingDigitPositive(front);
    }
  }

  /** `NatToString(n)` is the only canonical digit run that reads back as
      `n`: the parser accepts padded text, the renderer never writes it. */
  lemma {:induction false} CanonicalNatUnique(s: string, n: nat)
    requires Canonical(s) && ParseNat(s) == Some(n)
    ensures s == NatToString(n)
    decreases |s|
  {
    var last := s[|s| - 1];
    assert DigitChar(DigitValue(last)) == last;
    if |s| > 1 {
      var front := s[..|s| - 1];
      assert front[0] == s[0] && s[0] != '0';
      assert AllDigits(front);
      LeadingDigitPositive(front);
      assert n == 10 * DigitsValue(front) + DigitValue(last);
      assert n / 10 == DigitsValue(front) && n % 10 == DigitValue(last);
      CanonicalNatUnique(front, DigitsValue(front));
      assert s == front + [last];
    }
  }

  /** `'%d' % n` is the only canonical decimal text, sign included, that
      reads back as `n`. */
  lemma CanonicalIntUnique(s: string, n: int)
    requires CanonicalInt(s) && ParseInt(s) == Some(n)
    ensures s == IntToString(n)
  {
    if s[0] == '-' {
      var m := ParseNat(s[1..]).value;
      CanonicalNatUnique(s[1..], m);
      assert s == "-" + s[1..];
    } else {
      CanonicalNatUnique(s, n);
    }
  }

  /** Distinct integers render to distinct decimal strings. */
  lemma IntToStringInjective(a: int, b: int)
    ensures IntToString(a) == IntToString(b) <==> a == b
  {
    IntRoundTrip(a);
    IntRoundTrip(b);
  }
}

=== FILE: miniatures.dfy ===
/** Miniature records (db.py): the enumerations a record is made of, and
    construction with its required-field checks. */
module Miniatures {
  import opened Wrappers

  datatype Material = Plastic | Metal

  datatype PaintScheme = Unpainted | WolfFromEbay | GreenAndBlackGencon2018

  datatype Built = Yes | No

  /** A physical miniature. `kind` and `key` stay unset until the catalog
      stamps the record. */
  datatype Miniature = Miniature(
    material: Material,
    paint: PaintScheme,
    built: Built,
    kind: Option<string>,
    key: Option<string>)

  /** The required constructor arguments. */
  datatype Field = MaterialField | PaintField | BuiltField

  /** Position of a field in the order the constructor checks them. */
  function CheckOrder(f: Field): nat {
    match f
    case MaterialField => 0
    case PaintField => 1
    case BuiltField => 2
  }

  function FieldName(f: Field): string {
    match f
    case MaterialField => "material"
    case PaintField => "paint"
    case BuiltField => "built"
  }

  /** The one error construction raises: a required argument was `None`. */
  datatype Error = RequiredFieldMissing(field: Field)

  /** The text the source's error carries. */
  function Message(e: Error): (r: string)
    ensures |r| > |FieldName(e.field)| && r[..|FieldName(e.field)|] == FieldName(e.field)
  {
    FieldName(e.field) + " must be specified"
  }

  /** Whether the argument for `f` was left out. */
  predicate Missing(f: Field, material: Option<Material>, paint: Option<PaintScheme>, built: Option<Built>) {
    match f
    case MaterialField => material.None?
    case PaintField => paint.None?
    case BuiltField => built.None?
  }

  /** `Miniature(material, paint, built)`: fails on the first missing
      argument in check order; otherwise stores the three values as given,
      with `kind` and `key` unset. */
  function NewMiniature(material: Option<Material>, paint: Option<PaintScheme>, built: Option<Built>): (r: Result<Miniature, Error>)
    ensures r.Success? <==> material.Some? && paint.Some? && built.Some?
    ensures r.Success? ==>
      && r.value.material == material.value
      && r.value.paint == paint.value
      && r.value.built == built.value
      && r.value.kind.None?
      && r.value.key.None?
    ensures r.Failure? ==>
      && Missing(r.error.field, material, paint, built)
      && forall f: Field :: CheckOrder(f) < CheckOrder(r.error.field) ==> !Missing(f, material, paint, built)
  {
    if material.None? then Failure(RequiredFieldMissing(MaterialField))
    else if paint.None? then Failure(RequiredFieldMissing(PaintField))
    else if built.None? then Failure(RequiredFieldMissing(BuiltField))
    else Success(Miniature(material.value, paint.value, built.value, None, None))
  }

  /** Leaving out `built` alone raises the error for `built`. */
  lemma MissingBuiltExample()
    ensures NewMiniature(Some(Metal), Some(Unpainted), None) == Failure(RequiredFieldMissing(BuiltField))
    ensures Message(RequiredFieldMissing(BuiltField)) == "built must be specified"
  {
  }

  /** When several arguments are missing, the error names the first in
      check order. */
  lemma FirstMissingWins(paint: Option<PaintScheme>, built: Option<Built>)
    ensures NewMiniature(None, paint, built).Failure?
    ensures NewMiniature(None, paint, built).error.field == MaterialField
  {
  }
}

=== FILE: snake_case.dfy ===
/** `_ToSnakeCase` (db.py): turns the CamelCase part of a producer name
    into the snake_case kind used in catalog keys.

    The source decides that a character starts a new word when
    upper-casing leaves it unchanged. That is true of upper-case letters,
    but also of digits, `_` and every other character without case, so
    all of those get a separator too. */
module SnakeCase {
  import Ascii

  /** The source's test `char.upper() == char`. */
  predicate StartsWord(c: char) {
    Ascii.Upper(c) == c
  }

  /** A character that does not start a word is a lower-case ASCII letter. */
  lemma NotStartsWordIsLower(c: char)
    ensures !StartsWord(c) <==> Ascii.IsLowerLetter(c)
  {
  }

  /** What one input character appends to the output, given whether
      the output is already non-empty. */
  function Step(c: char, hasOutput: bool): (r: string)
    ensures |r| == if hasOutput && StartsWord(c) then 2 else 1
    ensures r[|r| - 1] == Ascii.Lower(c)
    ensures |r| == 2 ==> r[0] == '_'
  {
    if StartsWord(c) then (if hasOutput then "_" else "") + [Ascii.Lower(c)] else [c]
  }

  /** The output after the loop has consumed the first `n` characters. */
  function Run(camel: string, n: nat): (out: string)
    requires n <= |camel|
    ensures |out| >= n
    decreases n
  {
    if n == 0 then ""
    else
      var out := Run(camel, n - 1);
      out + Step(camel[n - 1], |out| > 0)
  }

  /** `_ToSnakeCase(camel)`: the output once every character is consumed. */
  function ToSnakeCase(camel: string): (r: string)
    ensures |r| >= |camel|
  {
    Run(camel, |camel|)
  }

  /** Positions below `n` in front of which a separator is written:
      every word-starting character except the first. */
  ghost function SeparatorsBelow(s: string, n: int): set<int> {
    set i | 1 <= i < n && i < |s| && StartsWord(s[i])
  }

  ghost function Separators(s: string): set<int> {
    SeparatorsBelow(s, |s|)
  }

  /** The output so far depends only on the characters consumed so far. */
  lemma {:induction false} RunPrefix(s: string, t: string, n: nat)
    requires n <= |s| && n <= |t|
    requires s[..n] == t[..n]
    ensures Run(s, n) == Run(t, n)
    decreases n
  {
    if n > 0 {
      assert s[..n - 1] == t[..n - 1] by {
        assert s[..n - 1] == s[..n][..n - 1];
        assert t[..n - 1] == t[..n][..n - 1];
      }
      RunPrefix(s, t, n - 1);
      assert s[n - 1] == s[..n][n - 1] == t[..n][n - 1] == t[n - 1];
    }
  }

  /** Appending one character appends its step; the output so far is
      non-empty exactly when the input so far is. */
  lemma SnakeCaseSnoc(s: string, c: char)
    ensures ToSnakeCase(s + [c]) == ToSnakeCase(s) + Step(c, |s| >= 1)
  {
    var t := s + [c];
    assert t[..|s|] == s[..|s|];
    RunPrefix(s, t, |s|);
  }

  /** The output holds no upper-case ASCII letter. */
  lemma {:induction false} RunNoUpper(s: string, n: nat)
    requires n <= |s|
    ensures forall i :: 0 <= i < |Run(s, n)| ==> !Ascii.IsUpperLetter(Run(s, n)[i])
    decreases n
  {
    if n > 0 {
      RunNoUpper(s, n - 1);
      var step := Step(s[n - 1], |Run(s, n - 1)| > 0);
      assert forall i :: 0 <= i < |step| ==> !Ascii.IsUpperLetter(step[i]);
    }
  }

  lemma SnakeCaseNoUpper(s: string)
    ensures forall i :: 0 <= i < |ToSnakeCase(s)| ==> !Ascii.IsUpperLetter(ToSnakeCase(s)[i])
  {
    RunNoUpper(s, |s|);
  }

  /** No separator is written before the first character: the output
      starts with the first input character, lowered. */
  lemma {:induction false} RunFirst(s: string, n: nat)
    requires 1 <= n <= |s|
    ensures Run(s, n)[0] == Ascii.Lower(s[0])
    decreases n
  {
    if n > 1 {
      RunFirst(s, n - 1);
    }
  }

  lemma SnakeCaseFirst(s: string)
    requires |s| >= 1
    ensures ToSnakeCase(s)[0] == Ascii.Lower(s[0])
  {
    RunFirst(s, |s|);
  }

  lemma SeparatorsStep(s: string, n: nat)
    requires 1 <= n <= |s|
    ensures SeparatorsBelow(s, n) == SeparatorsBelow(s, n - 1) + (if n >= 2 && StartsWord(s[n - 1]) then {n - 1} else {})
    ensures n - 1 !in SeparatorsBelow(s, n - 1)
  {
  }

  /** After `n` characters the output is `n` long plus one for every
      separator written so far. */
  lemma {:induction false} RunLength(s: string, n: nat)
    requires n <= |s|
    ensures |Run(s, n)| == n + |SeparatorsBelow(s, n)|
    decreases n
  {
    if n == 0 {
      assert SeparatorsBelow(s, 0) == {};
    } else {
      var out := Run(s, n - 1);
      RunLength(s, n - 1);
      SeparatorsStep(s, n);
      assert |out| > 0 <==> n >= 2;
      assert |Run(s, n)| == |out| + |Step(s[n - 1], |out| > 0)|;
    }
  }

  /** The output is as long as the input plus one separator for every
      word-starting character after the first. */
  lemma SnakeCaseLength(s: string)
    ensures |ToSnakeCase(s)| == |s| + |Separators(s)|
  {
    RunLength(s, |s|);
  }

  /** Without separators the output is the input with its first
      character lowered. */
  lemma {:induction false} RunNoSeparators(s: string, n: nat)
    requires 1 <= n <= |s|
    requires SeparatorsBelow(s, n) == {}
    ensures Run(s, n) == [Ascii.Lower(s[0])] + s[1..n]
    decreases n
  {
    if n >= 2 {
      SeparatorsStep(s, n);
      RunNoSeparators(s, n - 1);
      assert s[1..n] == s[1..n - 1] + [s[n - 1]];
    }
  }

  lemma NoSeparatorsOutput(s: string)
    requires |s| >= 1
    requires Separators(s) == {}
    ensures ToSnakeCase(s) == [Ascii.Lower(s[0])] + s[1..]
  {
    RunNoSeparators(s, |s|);
    assert s[1..|s|] == s[1..];
  }

  /** `_ToSnakeCase` returns its input unchanged exactly when the input is
      empty, or its first character is not an upper-case letter and all
      the others are lower-case letters. */
  lemma SnakeCaseFixedIff(s: string)
    ensures ToSnakeCase(s) == s <==>
      (|s| == 0 || (Ascii.Lower(s[0]) == s[0] && forall i :: 1 <= i < |s| ==> Ascii.IsLowerLetter(s[i])))
  {
    if |s| >= 1 {
      if ToSnakeCase(s) == s {
        SnakeCaseLength(s);
        SnakeCaseFirst(s);
        assert Separators(s) == {};
        forall i | 1 <= i < |s|
          ensures Ascii.IsLowerLetter(s[i])
        {
          assert i !in Separators(s);
          NotStartsWordIsLower(s[i]);
        }
      }
      if Ascii.Lower(s[0]) == s[0] && forall i :: 1 <= i < |s| ==> Ascii.IsLowerLetter(s[i]) {
        forall i | 1 <= i < |s|
          ensures !StartsWord(s[i])
        {
          NotStartsWordIsLower(s[i]);
        }
        assert Separators(s) == {};
        NoSeparatorsOutput(s);
        assert s == [s[0]] + s[1..];
      }
    }
  }

  /** Input made only of lower-case letters is returned unchanged. */
  lemma LowercaseUnchanged(s: string)
    requires forall i :: 0 <= i < |s| ==> Ascii.IsLowerLetter(s[i])
    ensures ToSnakeCase(s) == s
  {
    SnakeCaseFixedIff(s);
  }

  /** The output for the first `j` characters is a prefix of the output. */
  lemma {:induction false} RunMonotone(s: string, j: nat, n: nat)
    requires j <= n <= |s|
    ensures Run(s, j) <= Run(s, n)
    decreases n
  {
    if j < n {
      RunMonotone(s, j, n - 1);
    }
  }

  /** A word-starting character after the first shows up in the output
      as a `_` somewhere after position 0. */
  lemma SeparatorWritten(s: string, i: int) returns (j: int)
    requires i in Separators(s)
    ensures 1 <= j < |ToSnakeCase(s)|
    ensures ToSnakeCase(s)[j] == '_'
  {
    j := |Run(s, i)|;
    RunMonotone(s, i + 1, |s|);
  }

  /** When no separator is written, a second application is harmless. */
  lemma NoSeparatorsIdempotent(s: string)
    requires Separators(s) == {}
    ensures ToSnakeCase(ToSnakeCase(s)) == ToSnakeCase(s)
  {
    var r := ToSnakeCase(s);
    if |s| >= 1 {
      NoSeparatorsOutput(s);
      Ascii.LowerIdempotent(s[0]);
      forall i | 1 <= i < |r|
        ensures Ascii.IsLowerLetter(r[i])
      {
        assert r[i] == s[i];
        assert i !in Separators(s);
        NotStartsWordIsLower(s[i]);
      }
    }
    SnakeCaseFixedIff(r);
  }

  /** Applying `_ToSnakeCase` a second time leaves the result alone
      exactly when the first application wrote no separator. A `_` or a
      digit counts as word-starting, so snake_case text such as
      "mad_cat" is not a fixed point. */
  lemma SnakeCaseIdempotentIff(s: string)
    ensures ToSnakeCase(ToSnakeCase(s)) == ToSnakeCase(s) <==> Separators(s) == {}
  {
    if Separators(s) == {} {
      NoSeparatorsIdempotent(s);
    } else {
      var i :| i in Separators(s);
      var j := SeparatorWritten(s, i);
      SnakeCaseFixedIff(ToSnakeCase(s));
    }
  }

  /** A lower-case letter is copied to the output. */
  lemma AppendsLower(camel: string, n: nat)
    requires n < |camel| && Ascii.IsLowerLetter(camel[n])
    ensures Run(camel, n + 1) == Run(camel, n) + [camel[n]]
  {
  }

  /** A word-starting character is lowered, with a `_` in front unless
      it is the first character. */
  lemma AppendsWord(camel: string, n: nat)
    requires n < |camel| && StartsWord(camel[n])
    ensures Run(camel, n + 1) == Run(camel, n) + (if n > 0 then "_" else "") + [Ascii.Lower(camel[n])]
  {
  }

  /** The first demo producer: "MadCat" becomes "mad_cat". */
  lemma MadCatExample()
    ensures ToSnakeCase("MadCat") == "mad_cat"
  {
    var w := "MadCat";
    AppendsWord(w, 0);
    AppendsLower(w, 1);
    AppendsLower(w, 2);
    AppendsWord(w, 3);
    AppendsLower(w, 4);
    AppendsLower(w, 5);
  }

  /** Case is lost: "madCat" gives the same kind as "MadCat". */
  lemma LowerFirstExample()
    ensures ToSnakeCase("madCat") == "mad_cat"
  {
    var w := "madCat";
    AppendsLower(w, 0);
    AppendsLower(w, 1);
    AppendsLower(w, 2);
    AppendsWord(w, 3);
    AppendsLower(w, 4);
    AppendsLower(w, 5);
  }

  /** The second demo producer: "Vulture" becomes "vulture". */
  lemma VultureExample()
    ensures ToSnakeCase("Vulture") == "vulture"
  {
    var w := "Vulture";
    AppendsWord(w, 0);
    AppendsLower(w, 1);
    AppendsLower(w, 2);
    AppendsLower(w, 3);
    AppendsLower(w, 4);
    AppendsLower(w, 5);
    AppendsLower(w, 6);
  }

  /** A single-word name: "Atlas" becomes "atlas". */
  lemma AtlasExample()
    ensures ToSnakeCase("Atlas") == "atlas"
  {
    var w := "Atlas";
    AppendsWord(w, 0);
    AppendsLower(w, 1);
    AppendsLower(w, 2);
    AppendsLower(w, 3);
    AppendsLower(w, 4);
  }

  /** Input already in snake_case is not returned unchanged: the `_`
      counts as word-starting and gains a second `_` in front. */
  lemma SnakeInputExample()
    ensures ToSnakeCase("mad_cat") == "mad__cat"
  {
    var w := "mad_cat";
    AppendsLower(w, 0);
    AppendsLower(w, 1);
    AppendsLower(w, 2);
    assert Run(w, 3) == "mad";
    assert Ascii.Upper('_') == '_' && Ascii.Lower('_') == '_';
    AppendsWord(w, 3);
    assert Run(w, 4) == "mad__";
    AppendsLower(w, 4);
    AppendsLower(w, 5);
    AppendsLower(w, 6);
  }

  /** The empty name gives the empty kind. */
  lemma EmptyExample()
    ensures ToSnakeCase("") == ""
  {
  }
}

=== FILE: specials.dfy ===
/** The special-ability tag formatter (specials.py): a few constant
    labels, and tags whose numeric slots render as decimal integers or
    as the placeholder `-`.

    Besides the formatting functions themselves, the module defines the
    closed vocabulary of tags as a datatype and a parser for the rendered
    text, so that rendering can be shown to lose nothing. */
module Specials {
  import opened Wrappers
  import Ascii
  import Decimal

  /** What an absent slot renders as. */
  const Placeholder: string := "-"

  /** What separates the slots of a ranged tag. */
  const Separator: char := '/'

  /** `_FormatNumber(x)`: the placeholder for `None`, otherwise `'%d' % x`. */
  function FormatNumber(x: Option<int>): (r: string)
    ensures |r| >= 1
    ensures !Ascii.IsUpperLetter(r[0])
    ensures Separator !in r
    ensures r == Placeholder <==> x.None?
    ensures x.Some? ==> Decimal.CanonicalInt(r)
  {
    match x
    case None => Placeholder
    case Some(n) => Decimal.IntToString(n)
  }

  const AMS: string := "AMS"
  const CASE: string := "CASE"
  const LTAG: string := "LTAG"
  const OMNI: string := "OMNI"
  const OVL: string := "OVL"

  const IfLabel: string := "IF"
  const LrmLabel: string := "LRM"
  const RearLabel: string := "REAR"
  const SrmLabel: string := "SRM"

  /** Slot texts joined by the separator: what a ranged tag writes after
      its label. */
  function JoinSlots(xs: seq<Option<int>>): (r: string)
    requires |xs| >= 1
    ensures |r| >= 1 && !Ascii.IsUpperLetter(r[0])
    decreases |xs|
  {
    var last := FormatNumber(xs[|xs| - 1]);
    if |xs| == 1 then last else JoinSlots(xs[..|xs| - 1]) + [Separator] + last
  }

  /** The joined slots hold one separator fewer than there are slots. */
  lemma {:induction false} JoinSlotsCount(xs: seq<Option<int>>)
    requires |xs| >= 1
    ensures multiset(JoinSlots(xs))[Separator] == |xs| - 1
    decreases |xs|
  {
    SlotCount(FormatNumber(xs[|xs| - 1]));
    if |xs| > 1 {
      JoinSlotsCount(xs[..|xs| - 1]);
    }
  }

  /** Reading the joined slots back gives the slot values. */
  lemma {:induction false} JoinSlotsRoundTrip(xs: seq<Option<int>>)
    requires |xs| >= 1
    ensures ParseSlots(JoinSlots(xs)) == Some(xs)
    decreases |xs|
  {
    var x := xs[|xs| - 1];
    if |xs| == 1 {
      assert JoinSlots(xs) == FormatNumber(x);
      OneSlot(x);
      assert xs == [x];
    } else {
      var init := xs[..|xs| - 1];
      assert JoinSlots(xs) == JoinSlots(init) + [Separator] + FormatNumber(x);
      JoinSlotsRoundTrip(init);
      SlotsSnoc(JoinSlots(init), init, x);
      assert xs == init + [x];
    }
  }

  /** One rendered slot is read back as a one-slot list. */
  lemma OneSlot(x: Option<int>)
    ensures SplitSlots(FormatNumber(x)) == [FormatNumber(x)]
    ensures ParseSlots(FormatNumber(x)) == Some([x])
  {
    var last := FormatNumber(x);
    SlotRoundTrip(x);
    SplitField(last);
    assert ParseEach([last]) == Some([x]) by {
      assert [last][0] == last;
      assert [last][1..] == [];
      assert ParseEach([last][1..]) == Some([]);
      assert [x] + [] == [x];
    }
  }

  /** Appending a separator and one rendered slot appends that slot's value. */
  lemma SlotsSnoc(front: string, init: seq<Option<int>>, x: Option<int>)
    requires ParseSlots(front) == Some(init)
    ensures ParseSlots(front + [Separator] + FormatNumber(x)) == Some(init + [x])
  {
    var last := FormatNumber(x);
    OneSlot(x);
    SplitJoin(front, last);
    ParseEachAppend(SplitSlots(front), SplitSlots(last));
  }

  /** `IF(num)`: the label followed by the decimal number; there is no
      placeholder form, so `num` must be present. */
  function IF(num: int): (r: string)
    ensures |r| > |IfLabel| && r[..|IfLabel|] == IfLabel
    ensures LabelLength(r) == |IfLabel|
    ensures Decimal.ParseInt(r[|IfLabel|..]) == Some(num)
    ensures Decimal.CanonicalInt(r[|IfLabel|..])
    ensures Separator !in r
  {
    var digits := Decimal.IntToString(num);
    Decimal.IntRoundTrip(num);
    LabelLengthOf(IfLabel, digits);
    assert (IfLabel + digits)[|IfLabel|..] == digits;
    IfLabel + digits
  }

  /** `LRM(s, m, l)`: long-range missiles, three slots. */
  function LRM(s: Option<int>, m: Option<int>, l: Option<int>): (r: string)
    ensures |r| > |LrmLabel| && r[..|LrmLabel|] == LrmLabel
    ensures LabelLength(r) == |LrmLabel|
    ensures ParseSlots(r[|LrmLabel|..]) == Some([s, m, l])
    ensures CanonicalSlots(r[|LrmLabel|..])
    ensures multiset(r)[Separator] == 2
  {
    ThreeSlotsJoined(s, m, l);
    RangedTag(LrmLabel, [s, m, l]);
    LrmLabel + (FormatNumber(s) + [Separator] + FormatNumber(m) + [Separator] + FormatNumber(l))
  }

  /** `REAR(s, m, l)`: rear-facing weapons, three slots. */
  function REAR(s: Option<int>, m: Option<int>, l: Option<int>): (r: string)
    ensures |r| > |RearLabel| && r[..|RearLabel|] == RearLabel
    ensures LabelLength(r) == |RearLabel|
    ensures ParseSlots(r[|RearLabel|..]) == Some([s, m, l])
    ensures CanonicalSlots(r[|RearLabel|..])
    ensures multiset(r)[Separator] == 2
  {
    ThreeSlotsJoined(s, m, l);
    RangedTag(RearLabel, [s, m, l]);
    RearLabel + (FormatNumber(s) + [Separator] + FormatNumber(m) + [Separator] + FormatNumber(l))
  }

  /** `SRM(s, m)`: short-range missiles, two slots. */
  function SRM(s: Option<int>, m: Option<int>): (r: string)
    ensures |r| > |SrmLabel| && r[..|SrmLabel|] == SrmLabel
    ensures LabelLength(r) == |SrmLabel|
    ensures ParseSlots(r[|SrmLabel|..]) == Some([s, m])
    ensures CanonicalSlots(r[|SrmLabel|..])
    ensures multiset(r)[Separator] == 1
  {
    TwoSlotsJoined(s, m);
    RangedTag(SrmLabel, [s, m]);
    SrmLabel + (FormatNumber(s) + [Separator] + FormatNumber(m))
  }

  /** What every ranged tag promises: its label is followed by slot
      text that reads back as the slot values. */
  lemma RangedTag(name: string, xs: seq<Option<int>>)
    requires |name| >= 1 && forall i :: 0 <= i < |name| ==> Ascii.IsUpperLetter(name[i])
    requires |xs| >= 1
    ensures var r := name + JoinSlots(xs);
      && r[..|name|] == name
      && LabelLength(r) == |name|
      && ParseSlots(r[|name|..]) == Some(xs)
      && CanonicalSlots(r[|name|..])
      && multiset(r)[Separator] == |xs| - 1
  {
    var slots := JoinSlots(xs);
    var r := name + slots;
    LabelLengthOf(name, slots);
    JoinSlotsRoundTrip(xs);
    JoinSlotsCount(xs);
    JoinSlotsCanonical(xs);
    LabelSeparators(name, slots);
    assert r[..|name|] == name;
    assert r[|name|..] == slots;
  }

  /** A label adds no separator. */
  lemma LabelSeparators(name: string, slots: string)
    requires forall i :: 0 <= i < |name| ==> Ascii.IsUpperLetter(name[i])
    ensures multiset(name + slots)[Separator] == multiset(slots)[Separator]
  {
    assert Separator !in multiset(name);
  }

  lemma ThreeSlotsJoined(s: Option<int>, m: Option<int>, l: Option<int>)
    ensures FormatNumber(s) + [Separator] + FormatNumber(m) + [Separator] + FormatNumber(l) == JoinSlots([s, m, l])
  {
    assert [s, m, l][..2] == [s, m];
    TwoSlotsJoined(s, m);
  }

  lemma TwoSlotsJoined(s: Option<int>, m: Option<int>)
    ensures FormatNumber(s) + [Separator] + FormatNumber(m) == JoinSlots([s, m])
  {
    assert [s, m][..1] == [s];
  }

  // Reading rendered tags back.

  /** Number of leading upper-case letters: the length of the tag's label. */
  function LabelLength(s: string): (n: nat)
    ensures n <= |s|
    decreases |s|
  {
    if |s| == 0 || !Ascii.IsUpperLetter(s[0]) then 0 else 1 + LabelLength(s[1..])
  }

  /** Reads one slot: the placeholder, or a decimal number. */
  function ParseSlot(s: string): Option<Option<int>> {
    if s == Placeholder then Some(None)
    else
      match Decimal.ParseInt(s)
      case Some(n) => Some(Some(n))
      case None => None
  }

  /** Cuts slot text at every separator. */
  function SplitSlots(s: string): (parts: seq<string>)
    ensures |parts| >= 1
    decreases |s|
  {
    if |s| == 0 then [""]
    else
      var rest := SplitSlots(s[1..]);
      if s[0] == Separator then [""] + rest else [[s[0]] + rest[0]] + rest[1..]
  }

  function ParseEach(parts: seq<string>): Option<seq<Option<int>>>
    decreases |parts|
  {
    if |parts| == 0 then Some([])
    else
      match (ParseSlot(parts[0]), ParseEach(parts[1..]))
      case (Some(x), Some(xs)) => Some([x] + xs)
      case _ => None
  }

  /** Reading a list of slot texts reads each part in turn. */
  lemma {:induction false} ParseEachAppend(p: seq<string>, q: seq<string>)
    ensures ParseEach(p + q) ==
      match (ParseEach(p), ParseEach(q))
      case (Some(xs), Some(ys)) => Some(xs + ys)
      case _ => None
    decreases |p|
  {
    if |p| == 0 {
      assert p + q == q;
      match ParseEach(q)
      case Some(ys) =>
        assert [] + ys == ys;
      case None =>
    } else {
      assert (p + q)[1..] == p[1..] + q;
      ParseEachAppend(p[1..], q);
      match (ParseSlot(p[0]), ParseEach(p[1..]), ParseEach(q))
      case (Some(x), Some(xs), Some(ys)) =>
        assert [x] + (xs + ys) == ([x] + xs) + ys;
      case _ =>
    }
  }

  /** Reads the slots of a ranged tag. */
  function ParseSlots(s: string): Option<seq<Option<int>>> {
    ParseEach(SplitSlots(s))
  }

  /** The label of a tag ends where its slot text begins. */
  lemma {:induction false} LabelLengthOf(name: string, rest: string)
    requires forall i :: 0 <= i < |name| ==> Ascii.IsUpperLetter(name[i])
    requires |rest| == 0 || !Ascii.IsUpperLetter(rest[0])
    ensures LabelLength(name + rest) == |name|
    decreases |name|
  {
    if |name| == 0 {
      assert name + rest == rest;
    } else {
      assert (name + rest)[1..] == name[1..] + rest;
      LabelLengthOf(name[1..], rest);
    }
  }

  /** Text without a separator is one slot. */
  lemma {:induction false} SplitField(x: string)
    requires Separator !in x
    ensures SplitSlots(x) == [x]
    decreases |x|
  {
    if |x| > 0 {
      SplitField(x[1..]);
      assert x == [x[0]] + x[1..];
    }
  }

  /** Cutting at one separator cuts the text into what lies on either side. */
  lemma {:induction false} SplitJoin(x: string, y: string)
    ensures SplitSlots(x + [Separator] + y) == SplitSlots(x) + SplitSlots(y)
    decreases |x|
  {
    var s := x + [Separator] + y;
    if |x| == 0 {
      assert s[1..] == y;
    } else {
      assert s[0] == x[0];
      assert s[1..] == x[1..] + [Separator] + y;
      SplitJoin(x[1..], y);
    }
  }

  lemma SlotCount(x: string)
    requires Separator !in x
    ensures multiset(x)[Separator] == 0
  {
  }

  /** Slot text as the formatter writes it: the placeholder, or a number
      as `'%d'` writes it, without padding. */
  predicate CanonicalSlot(t: string) {
    t == Placeholder || Decimal.CanonicalInt(t)
  }

  /** Every slot of the text is written canonically. */
  predicate CanonicalSlots(s: string) {
    var parts := SplitSlots(s);
    forall i :: 0 <= i < |parts| ==> CanonicalSlot(parts[i])
  }

  /** The formatter's rendering is the only canonical slot text that reads
      back as a given value. */
  lemma SlotUnique(t: string, x: Option<int>)
    requires CanonicalSlot(t) && ParseSlot(t) == Some(x)
    ensures t == FormatNumber(x)
  {
    if t != Placeholder {
      Decimal.CanonicalIntUnique(t, x.value);
    }
  }

  /** Joined slots are written canonically, every one of them. */
  lemma {:induction false} JoinSlotsCanonical(xs: seq<Option<int>>)
    requires |xs| >= 1
    ensures CanonicalSlots(JoinSlots(xs))
    decreases |xs|
  {
    var last := FormatNumber(xs[|xs| - 1]);
    SplitField(last);
    if |xs| > 1 {
      var front := JoinSlots(xs[..|xs| - 1]);
      JoinSlotsCanonical(xs[..|xs| - 1]);
      assert JoinSlots(xs) == front + [Separator] + last;
      SplitJoin(front, last);
    }
  }

  /** Reading a slot back gives the value it was rendered from. */
  lemma SlotRoundTrip(x: Option<int>)
    ensures ParseSlot(FormatNumber(x)) == Some(x)
  {
    if x.Some? {
      Decimal.IntRoundTrip(x.value);
    }
  }

  /** Distinct slot values render differently; in particular no number
      renders as the placeholder. */
  lemma FormatNumberInjective(x: Option<int>, y: Option<int>)
    ensures FormatNumber(x) == FormatNumber(y) <==> x == y
  {
    SlotRoundTrip(x);
    SlotRoundTrip(y);
  }

  // The tag vocabulary as data.

  /** Every tag the formatter can produce. */
  datatype Special =
    | Ams
    | Case
    | If(num: int)
    | Lrm(s: Option<int>, m: Option<int>, l: Option<int>)
    | Ltag
    | Omni
    | Ovl
    | Rear(s: Option<int>, m: Option<int>, l: Option<int>)
    | Srm(s: Option<int>, m: Option<int>)

  /** The display string of a tag, as the formatter writes it. */
  function Render(t: Special): string {
    match t
    case Ams => AMS
    case Case => CASE
    case If(num) => IF(num)
    case Lrm(s, m, l) => LRM(s, m, l)
    case Ltag => LTAG
    case Omni => OMNI
    case Ovl => OVL
    case Rear(s, m, l) => REAR(s, m, l)
    case Srm(s, m) => SRM(s, m)
  }

  /** Reads a display string back into a tag: the leading upper-case
      letters name the tag, the rest holds its slots. */
  function Parse(text: string): Option<Special> {
    var n := LabelLength(text);
    ParseTag(text[..n], text[n..])
  }

  /** Reads the tag named `name` whose slots are written in `args`. */
  function ParseTag(name: string, args: string): Option<Special> {
    if name == AMS && args == "" then Some(Ams)
    else if name == CASE && args == "" then Some(Case)
    else if name == LTAG && args == "" then Some(Ltag)
    else if name == OMNI && args == "" then Some(Omni)
    else if name == OVL && args == "" then Some(Ovl)
    else if name == IfLabel then
      match Decimal.ParseInt(args)
      case Some(num) => Some(If(num))
      case None => None
    else if name == LrmLabel || name == RearLabel then
      match ParseSlots(args)
      case Some(xs) =>
        if |xs| != 3 then None
        else if name == LrmLabel then Some(Lrm(xs[0], xs[1], xs[2]))
        else Some(Rear(xs[0], xs[1], xs[2]))
      case None => None
    else if name == SrmLabel then
      match ParseSlots(args)
      case Some(xs) => if |xs| == 2 then Some(Srm(xs[0], xs[1])) else None
      case None => None
    else None
  }

  /** A constant tag reads back as itself. */
  lemma ConstantRoundTrip(name: string)
    requires |name| >= 1 && forall i :: 0 <= i < |name| ==> Ascii.IsUpperLetter(name[i])
    ensures LabelLength(name) == |name|
    ensures name[..LabelLength(name)] == name && name[LabelLength(name)..] == ""
  {
    LabelLengthOf(name, "");
    assert name + "" == name;
  }

  lemma ParseConstant(t: Special)
    requires t.Ams? || t.Case? || t.Ltag? || t.Omni? || t.Ovl?
    ensures Parse(Render(t)) == Some(t)
  {
    match t
    case Ams => ConstantRoundTrip(AMS);
    case Case => ConstantRoundTrip(CASE);
    case Ltag => ConstantRoundTrip(LTAG);
    case Omni => ConstantRoundTrip(OMNI);
    case Ovl => ConstantRoundTrip(OVL);
  }

  lemma ParseIf(num: int)
    ensures Parse(IF(num)) == Some(If(num))
  {
    var r := IF(num);
    IfTag(r[|IfLabel|..], num);
    assert Parse(r) == ParseTag(IfLabel, r[|IfLabel|..]);
  }

  lemma ParseLrm(s: Option<int>, m: Option<int>, l: Option<int>)
    ensures Parse(LRM(s, m, l)) == Some(Lrm(s, m, l))
  {
    var r := LRM(s, m, l);
    ThreeSlotTag(r[|LrmLabel|..], s, m, l);
    assert Parse(r) == ParseTag(LrmLabel, r[|LrmLabel|..]);
  }

  lemma ParseRear(s: Option<int>, m: Option<int>, l: Option<int>)
    ensures Parse(REAR(s, m, l)) == Some(Rear(s, m, l))
  {
    var r := REAR(s, m, l);
    ThreeSlotTag(r[|RearLabel|..], s, m, l);
    assert Parse(r) == ParseTag(RearLabel, r[|RearLabel|..]);
  }

  lemma ParseSrm(s: Option<int>, m: Option<int>)
    ensures Parse(SRM(s, m)) == Some(Srm(s, m))
  {
    var r := SRM(s, m);
    SrmTag(r[|SrmLabel|..], s, m);
    assert Parse(r) == ParseTag(SrmLabel, r[|SrmLabel|..]);
  }

  lemma IfTag(args: string, num: int)
    requires Decimal.ParseInt(args) == Some(num)
    ensures ParseTag(IfLabel, args) == Some(If(num))
  {
  }

  lemma ThreeSlotTag(args: string, s: Option<int>, m: Option<int>, l: Option<int>)
    requires ParseSlots(args) == Some([s, m, l])
    ensures ParseTag(LrmLabel, args) == Some(Lrm(s, m, l))
    ensures ParseTag(RearLabel, args) == Some(Rear(s, m, l))
  {
  }

  lemma SrmTag(args: string, s: Option<int>, m: Option<int>)
    requires ParseSlots(args) == Some([s, m])
    ensures ParseTag(SrmLabel, args) == Some(Srm(s, m))
  {
  }

  /** Reading a rendered tag back gives the tag: rendering loses nothing. */
  lemma ParseRender(t: Special)
    ensures Parse(Render(t)) == Some(t)
  {
    match t
    case If(num) => ParseIf(num);
    case Lrm(s, m, l) => ParseLrm(s, m, l);
    case Rear(s, m, l) => ParseRear(s, m, l);
    case Srm(s, m) => ParseSrm(s, m);
    case _ => ParseConstant(t);
  }

  /** Distinct tags render to distinct display strings. */
  lemma RenderInjective(a: Special, b: Special)
    ensures Render(a) == Render(b) <==> a == b
  {
    ParseRender(a);
    ParseRender(b);
  }

  /** A missing slot renders as the placeholder and is never dropped. */
  lemma LrmAllMissingExample()
    ensures LRM(None, None, None) == "LRM-/-/-"
  {
  }

  /** A two-slot tag with its second slot missing. */
  lemma SrmMissingExample()
    ensures SRM(Some(2), None) == "SRM2/-"
  {
    assert Decimal.IntToString(2) == "2";
  }

  /** Zero-padded numbers are never written: no `IF` tag is `IF05`. */
  lemma PaddedIfNotRendered(num: int)
    ensures IF(num) != "IF05"
  {
  }

  /** `IF(2)` renders as `IF2`. */
  lemma IfExample()
    ensures IF(2) == "IF2"
  {
    assert Decimal.IntToString(2) == "2";
  }

  /** `LRM(1, 1, 2)` renders as `LRM1/1/2`. */
  lemma LrmExample()
    ensures LRM(Some(1), Some(1), Some(2)) == "LRM1/1/2"
  {
    var one, two := FormatNumber(Some(1)), FormatNumber(Some(2));
    assert one == "1" by {
      assert Decimal.IntToString(1) == "1";
    }
    assert two == "2" by {
      assert Decimal.IntToString(2) == "2";
    }
    assert LRM(Some(1), Some(1), Some(2)) == LrmLabel + (one + [Separator] + one + [Separator] + two);
  }
}

=== FILE: wrappers.dfy ===
/** Failure-carrying datatypes shared by the rest of the model:
    `Option` stands for a Python value that may be `None`, and `Result`
    for an operation that either returns a value or raises an error. */
module Wrappers {

  /** A value that may be absent (Python's `None`). */
  datatype Option<+T> = None | Some(value: T)

  /** The outcome of an operation that may raise an error. */
  datatype Result<+T, +E> = Success(value: T) | Failure(error: E)
}
